=== FILE: README.md ===
# Chat assistant backend: decision logic, modelled in Dafny

The backend of this furniture-store chat assistant answers product questions.
It runs a two-node LangGraph workflow: an `agent` node calls Gemini, and a
`tools` node runs the `item_lookup` tool against a MongoDB catalog. Most of
the backend is calls into those libraries. The logic it owns is five small,
sequential decisions, and this project models and proves each of them:

- `retryWithBackoff` (module `Retry`, `retry.dfy`). The unit of work `fn` is a
  script `nat -> Outcome<T>`: entry `a` is the outcome of the call made on
  attempt `a`. A run returns three things: the value or the thrown error, the
  number of calls, and the list of delays it would have slept.
  `IsRetryRun` is a declarative specification of a run. It determines the run
  uniquely (`RetryRunUnique`). Both the recursive function and the loop meet it.
- The workflow (module `Conversation`, `conversation.dfy`). It covers the
  concatenating `messages` reducer, `shouldContinue`, and a whole run of the
  graph. Agent visit `k` hands the model script `model(k)` to the retry
  wrapper with its default of 3 attempts. The tools node calls the tool body
  `runTool` once for each requested call. LangGraph's step ceiling is an
  explicit `budget` of node executions.
- The `item_lookup` tool body (module `ItemLookup`, `item_lookup.dfy`). It
  works over an abstract catalog, where every access either answers or fails
  with a message. It returns a tagged result together with the list of
  catalog accesses it made.
- The error mapping in `callAgent`'s catch block, and `callAgent` itself
  (module `Agent`, `agent.dfy`). Shared error shapes are in `api_errors.dfy`.
- `createItemSummary` (module `ItemSummary`, `item_summary.dfy`). The `Item`
  record follows `itemSchema`. Number-to-text conversion is the parameter
  `show`.

## Model

| member | source | states |
|---|---|---|
| `Retry.RetryWithBackoff` | Backend/src/agents.ts:20-42 | The loop over attempts 1..maxRetries meets the run specification: every call before the last one was a 429; one delay `min(1000·2^a, 30000)` is slept after each of them; the last call's value is returned, or its error is rethrown unchanged; with `maxRetries < 1` nothing is called and "Max retries exceeded" is thrown. The loop's run equals the recursive `Retry` run. |
| `Retry.RetryFrom` | Backend/src/agents.ts:25-41 | Starting at any attempt, the recursive form meets the same specification, stated from that attempt. |
| `Retry.RetryRunUnique` | Backend/src/agents.ts:25-38 | The specification is deterministic: two runs that satisfy it are equal. |
| `Retry.AttemptsBounded` | Backend/src/agents.ts:25-30 | `fn` is called at most `maxRetries` times (0 times when `maxRetries < 1`). At most `maxRetries - 1` delays are slept, exactly one fewer than the number of calls. |
| `Retry.FirstSuccessReturned` | Backend/src/agents.ts:26-27 | If attempt k is the first success after 429s only, the run returns its value after exactly k calls and k-1 delays, so no further call is made. |
| `Retry.NonRateLimitRethrownAtOnce` | Backend/src/agents.ts:30-38 | A first failure that is not a 429 is rethrown unchanged after one call, with no delay. |
| `Retry.PersistentRateLimitRethrown` | Backend/src/agents.ts:30-38 | If every attempt hits a 429, the last attempt's 429 is rethrown, not a generic error. This takes `maxRetries` calls and `maxRetries - 1` delays. |
| `Retry.MaxRetriesExceededOnlyWithoutAttempts` | Backend/src/agents.ts:25-41 | "Max retries exceeded" is thrown if and only if `maxRetries < 1`, and then `fn` is never called. |
| `Retry.RateLimitedThenSuccess` | Backend/src/agents.ts:25-36 | k rate limits followed by a success, with k < maxRetries, return the success value after k+1 calls and the first k delays of the schedule. |
| `Retry.BackoffMonotoneAndCapped` | Backend/src/agents.ts:32 | The delay never decreases as the attempt number grows, and never exceeds 30000 ms. |
| `Retry.BackoffCappedFromFive` | Backend/src/agents.ts:32 | From attempt 5 onward the delay is exactly the 30000 ms cap. |
| `Retry.ScheduleSortedAndCapped` | Backend/src/agents.ts:32-35 | Every sequence of slept delays is sorted in non-decreasing order and bounded by 30000 ms. |
| `Retry.FirstDelays` | Backend/src/agents.ts:32 | The delays after attempts 1 to 6 are 2000, 4000, 8000, 16000, 30000, 30000. |
| `Conversation.Reduce` | Backend/src/agents.ts:56 | The reducer keeps the old history as a prefix and appends the update after it. |
| `Conversation.ShouldContinue` | Backend/src/agents.ts:181-190 | Routing goes to `tools` if and only if the last message is a model message with at least one tool call. Otherwise it ends, and it never routes to `agent`. |
| `Conversation.AgentStep` | Backend/src/agents.ts:221-223 | An agent visit adds exactly one message, the model's reply, after the unchanged history. |
| `Conversation.ToolsStep` | Backend/src/agents.ts:168-170 | A tools visit appends one tool output per requested call, in call order, after the unchanged history. |
| `Conversation.ModelCall` | Backend/src/agents.ts:193-225 | An agent visit's model call is the result of a run of the retry wrapper on the visit's attempts, with 3 attempts. A reply is the first successful attempt, after rate limits only. A thrown error is the error of the last call made, after rate limits only. It is a 429 only if all 3 attempts were rate limited. The generic "Max retries exceeded" error never escapes. |
| `Conversation.FirstAttemptAnswers` | Backend/src/agents.ts:25-27 | When the first attempt succeeds, the model call returns that reply. |
| `Conversation.RunAgent` | Backend/src/agents.ts:227-233 | A run from the agent node only appends to the history it started from. Every appended message is a reply the model gave on some visit from the current one on, or the output of a tool call. A finished run ends on a model message with no tool call, which `shouldContinue` routes to the end. That message is the first successful answer of the model call of some visit from the current one on. A failed node carries the error of the last call of such a visit's model call, rethrown unchanged. |
| `Conversation.RunTools` | Backend/src/agents.ts:227-233 | The same holds for a run that starts at the tools node, which always hands back to the agent: only model replies and tool outputs are appended, and the final reply or failure comes from the model. |
| `Conversation.Invoke` | Backend/src/agents.ts:240-249 | `app.invoke` adds the user message after the stored history, and every outcome's history starts with both. Everything after them is a model reply or a tool output. A finished run's last message is a model message that requests no tool and is a first successful answer of the model. A failed node carries an error the model call rethrew unchanged. |
| `Conversation.FirstAttemptStep` | Backend/src/agents.ts:181-233 | An agent visit whose first attempt succeeds appends that reply. It then goes to the tools node if the reply requests a tool, and ends otherwise. |
| `Conversation.EndlessToolCallsHitLimit` | Backend/src/agents.ts:241-249 | A model that requests a tool on the first attempt of every visit never finishes and never fails. The run stops at the step ceiling, whatever the budget. |
| `Conversation.ToolRoundThenAnswer` | Backend/src/agents.ts:227-233 | From any history, a tool request followed by a plain answer gives one tools visit and then ends. The history gains exactly the request, the tool's output and the answer. |
| `Conversation.OneToolRoundThenAnswer` | Backend/src/agents.ts:227-249 | Take a tool request followed by a plain answer, with at least 3 steps of budget. The run finishes after one tools visit, with the history `saved + [user, request, tool output, answer]`. |
| `ItemLookup.Lookup` | Backend/src/agents.ts:63-153 | The accesses are a prefix of count, sample, similarity search, pattern search. The run stops early only on an empty catalog, a failed access, or non-empty similarity hits. The count-0 error happens if and only if the catalog is empty, and then only the count is done. A `vector` result is exactly the non-empty similarity hits with their scores. A `text` result follows an empty similarity search and is the pattern matches cut by `.limit(n)`. `count` equals the number of results, and the query is echoed. An error result occurs if and only if the last access failed. It carries "Failed to search inventory", that failure's message and the query. Every earlier access succeeded. |
| `ItemLookup.LookupCall` | Backend/src/agents.ts:63 | A call that leaves out `n` searches with `n = 10`. A given `n` is used as it is. |
| `ItemLookup.FailuresReported` | Backend/src/agents.ts:63-153 | A failing count, sample, similarity search or pattern search each gives the error result with that failure's message and the query. Nothing after the failing access is performed. |
| `ItemLookup.ApplyLimit` | Backend/src/agents.ts:118 | `.limit(n)` keeps a prefix of the matches. It has at most abs(n) documents, and all of them when `n` is 0. |
| `ItemLookup.VectorHitsReturned` | Backend/src/agents.ts:104-136 | Non-empty similarity hits from a non-empty catalog are returned unchanged with their scores, tagged `vector`. |
| `ItemLookup.PatternFallback` | Backend/src/agents.ts:107-127 | When the similarity search is empty, the pattern matches are returned in order and tagged `text`. There are no more of them than matched, and no more than `n` when `n > 0`. |
| `ItemLookup.SinglePatternMatch` | Backend/src/agents.ts:107-127 | No similarity hit and a single pattern match give exactly one `text` result, for every `n`. |
| `Agent.UserMessage` | Backend/src/agents.ts:256-266 | A 429 maps to the rate-limit message and a 401 to the authentication message. Any other error maps to `"Agent failed: " + message`. |
| `Agent.UserMessageDistinguishesCategories` | Backend/src/agents.ts:260-266 | The three kinds of message cannot be confused. The error's category can be read back from the message, and so can the original message of a generic error. |
| `Agent.AsApiError` | Backend/src/agents.ts:41 | A rethrown error reaches the catch block unchanged. The generic "Max retries exceeded" error has no status, so it falls in the generic category. |
| `Agent.CallAgent` | Backend/src/agents.ts:240-266 | `callAgent` replies if and only if the run finished. The reply is the content of the final message, a model message that requests no tool, and the run's history starts with `saved + [user message]`. A failed node is reported in the category of the error it threw, and a generic report is exactly `"Agent failed: "` followed by that error's message. Hitting the step ceiling is reported in the same way for the runtime's error. Every failure comes out as one of the three user-facing messages. |
| `Agent.OneToolRoundReplies` | Backend/src/agents.ts:240-254 | A tool request followed by a plain answer makes `callAgent` return the answer's text. |
| `Agent.PersistentRateLimitReported` | Backend/src/agents.ts:256-261 | If the first model call hits a 429 on all 3 attempts, `callAgent` fails with the rate-limit message. |
| `Agent.AuthFailureReported` | Backend/src/agents.ts:262-263 | A 401 on the first model call is not retried (one call), and `callAgent` fails with the authentication message. |
| `ItemSummary.Summary` | Backend/seed-database.ts:118-145 | The summary equals the six labelled segments joined by `". "`. |
| `ItemSummary.TemplateIsJoin` | Backend/seed-database.ts:140 | The template `B. Manufacturer: M. Categories: C. Reviews: R. Price: P. Notes: N` equals the join of `[B, "Manufacturer: "+M, ..., "Notes: "+N]` with `". "`. |
| `ItemSummary.JoinPlacesParts` | Backend/seed-database.ts:124-131 | Each part of a join appears unchanged at its offset, followed by the separator, and the last part ends the string. So the order is kept and nothing else is added. |
| `ItemSummary.SegmentsInOrder` | Backend/seed-database.ts:140 | The segments stand in the order basic info, Manufacturer, Categories, Reviews, Price, Notes. Each is followed by `". "`, and the notes end the summary, so the summary starts with the basic info. |
| `ItemSummary.CategoriesInOrder` | Backend/seed-database.ts:124 | Categories keep their original order, separated by `", "`, and the last one ends the segment. |
| `ItemSummary.FewCategories` | Backend/seed-database.ts:124 | An empty category list gives an empty segment, and a single category stands alone with no separator. |
| `ItemSummary.RenderedReviews` | Backend/seed-database.ts:126-130 | There is one rendered review per review, in the original order. |
| `ItemSummary.ReviewsInOrder` | Backend/seed-database.ts:126-131 | Review i renders as `"Rated " + rating + " on " + date + ": " + comment` at its offset, and the reviews are separated by single spaces. |
| `ItemSummary.SummaryIgnoresIdAndStreetAddress` | Backend/seed-database.ts:122 | The item id and the manufacturer's street, city, state and postal code do not affect the summary. |
| `ItemSummary.SummaryDeterminesCountry` | Backend/seed-database.ts:122 | Two items that differ only in the country have different summaries, so the country does appear. |
| `ItemSummary.SummaryDeterminesNotes` | Backend/seed-database.ts:137 | Two items that differ only in the notes have different summaries. The notes are the verbatim last segment. |
| `ItemSummary.PriceSegmentContents` | Backend/seed-database.ts:135 | The price segment gives the full price followed by `" USD"`, and then the sale price followed by `" USD"`. |

Points where the source behaves differently from what one might expect:

- The text fallback matches the query as a case-insensitive regular expression
  (`$regex`), not as a literal substring. In the model it is the catalog's
  `patternSearch`, an opaque function of the query. A query that is not a
  valid pattern fails in that search and becomes an error result.
- The fallback is capped with the cursor's `.limit(n)`. For MongoDB, `0`
  means no cap and a negative `n` caps at `-n` (`ApplyLimit`).
- Delays do not always increase. They never decrease, and from attempt 5 on
  they stay at the 30000 ms cap (`BackoffCappedFromFive`).
- Exhausting the attempts on rate limits surfaces the last 429 itself. For
  integer `maxRetries`, the trailing generic error is reachable only when
  `maxRetries < 1`, so it never reaches `callAgent`, which uses 3.

`createItemSummary` is a Dafny function, so the same item always gives the
same summary. There is no separate lemma for this.

## Left out

- I/O and timing are not modelled: `console.log`/`console.error`, real
  sleeping with `setTimeout`, and the current time in the prompt. Delays are
  returned, not waited.
- The Gemini model, the prompt template and the system instruction are left
  out. The model is the script `model(k)`, and the prompt it would see is not
  modelled.
- The MongoDB calls (`countDocuments`, `find`, `similaritySearchWithScore`,
  embeddings) are catalog answers given as input. Ranking, scoring and regex
  matching are the catalog's.
- `ItemLookup.Lookup`: it does not bound the similarity hits by `n`. That bound
  is enforced by the vector-search library, which is not part of this model.
- Serialising tool results with `JSON.stringify` is not modelled. The tool's
  answer is the structured `LookupResult`. The tools node's text output is the
  parameter `runTool`.
- LangGraph internals are not modelled: `StateGraph`, `ToolNode` error
  handling, checkpointing with `MongoDBSaver`, and the exact counting behind
  `recursionLimit: 15`. The ceiling is a `budget` of node executions. Its
  error is the parameter `limitError` of `CallAgent`.
- `Conversation.ShouldContinue`: requires a non-empty history. On an empty
  history the source would throw a `TypeError`. That cannot happen in the
  graph, because the agent node appends before routing.
- Loading and saving a thread's history, and the failures of doing so, are not
  modelled. `saved` is the history as loaded.
- `maxRetries` is modelled as an integer. Non-integer JavaScript numbers are
  not modelled. With a fractional value such as 2.5, a 429 on attempt 2 is followed by a
  delay, the loop then ends without a third call, and "Max retries exceeded"
  is thrown.
- `ItemLookup.Lookup`: `n` is an integer. The tool schema accepts any number
  (`z.number()`), and a fractional `n` passed to the similarity search and to
  `.limit` cannot be expressed in the model.
- Number-to-string formatting of `rating`, `full_price` and `sale_price` is the
  parameter `show`.
- `Backend/src/index.ts` is not modelled: Express routing, thread ids from
  `Date.now()`, the MongoDB connection and the HTTP 500 mapping.
- The React widget and storefront are not modelled. One cross-file quirk: the
  widget sets `threadId` from the response of every request, and the continue
  endpoint returns no `threadId`, so the third message starts a new thread.
- Seeding I/O is not modelled: `generateSyntheticData`,
  `setupDatabaseAndCollection`, `createVectorSearchIndex`, `seedDatabase`,
  and the 768-dimension embeddings.

=== FILE: agent.dfy ===
/** `callAgent`: run the workflow for one user message and hand back the text
    of the final message, or map whatever was thrown to one of three
    user-facing errors. */
module Agent {
  import opened ApiErrors
  import Retry
  import Conversation

  // The two long messages are written as a short head plus the rest, so that
  // the lemmas below can refer to their first words.
  const RateLimitText: string := "Service " + "temporarily unavailable due to rate limits. Please try again in a minute."
  const AuthFailureText: string := "Authentication " + "failed. Please check your API configuration."
  const GenericPrefix: string := "Agent failed: "
  /** The message of the wrapper's generic error. */
  const MaxRetriesText: string := "Max retries exceeded"

  datatype Category = RateLimited | AuthFailed | Other

  /** `callAgent` either returns the reply text or throws a new error with a message. */
  datatype AgentResult = Reply(text: string) | Failed(message: string)

  function CategoryOf(e: ApiError): Category {
    if IsRateLimit(e) then RateLimited
    else if IsAuthFailure(e) then AuthFailed
    else Other
  }

  /** The catch block of `callAgent`: the message of the error it throws. */
  function UserMessage(e: ApiError): (msg: string)
    ensures IsRateLimit(e) ==> msg == RateLimitText
    ensures !IsRateLimit(e) && IsAuthFailure(e) ==> msg == AuthFailureText
    ensures !IsRateLimit(e) && !IsAuthFailure(e) ==> msg == GenericPrefix + e.message
  {
    match CategoryOf(e)
    case RateLimited => RateLimitText
    case AuthFailed => AuthFailureText
    case Other => GenericPrefix + e.message
  }

  /** Reads the category back off a user-facing message. */
  function CategoryOfMessage(msg: string): Category {
    if msg == RateLimitText then RateLimited
    else if msg == AuthFailureText then AuthFailed
    else Other
  }

  /** The three kinds of user-facing message cannot be confused: the category
      of the original error, and for the generic kind its message, can be
      recovered from what the user sees. */
  lemma UserMessageDistinguishesCategories(e: ApiError)
    ensures CategoryOfMessage(UserMessage(e)) == CategoryOf(e)
    ensures CategoryOf(e) == Other ==>
              GenericPrefix <= UserMessage(e) && UserMessage(e)[|GenericPrefix|..] == e.message
  {
    if CategoryOf(e) == Other {
      var msg := UserMessage(e);
      assert msg == GenericPrefix + e.message;
      assert msg[0] == GenericPrefix[0] == 'A';
      assert msg[1] == GenericPrefix[1] == 'g';
      assert RateLimitText[0] == 'S';
      assert AuthFailureText[1] == 'u';
    }
  }

  /** The error a thrown value is seen as by the catch block. */
  function AsApiError(t: Retry.Thrown): (e: ApiError)
    ensures t.Rethrown? ==> e == t.error
    ensures t.MaxRetriesExceeded? ==> CategoryOf(e) == Other && e.message == MaxRetriesText
  {
    match t
    case Rethrown(err) => err
    case MaxRetriesExceeded => PlainError(MaxRetriesText)
  }

  /** `callAgent(client, query, thread_id)` on a thread whose stored history is
      `saved`; `limitError` is the graph runtime's step-ceiling error. */
  function CallAgent(saved: seq<Conversation.Message>, query: string, budget: nat,
                     model: nat -> nat -> Retry.Outcome<Conversation.AiMessage>,
                     runTool: Conversation.ToolCall -> string, limitError: ApiError): (r: AgentResult)
    // a reply comes exactly from a finished run, and is the content of its final
    // message, a model message that requests no tool
    ensures r.Reply? <==> Conversation.Invoke(saved, query, budget, model, runTool).Finished?
    ensures r.Reply? ==>
              var g := Conversation.Invoke(saved, query, budget, model, runTool);
              && g.history[..|saved| + 1] == saved + [Conversation.Human(query)]
              && Conversation.Last(g.history).Ai?
              && Conversation.Last(g.history).reply.toolCalls == []
              && r.text == Conversation.Last(g.history).reply.content
    // a failed node is reported in the category of the error it threw, and a
    // generic report carries that error's message
    ensures var g := Conversation.Invoke(saved, query, budget, model, runTool);
            g.NodeFailed? ==>
              && g.thrown.Rethrown?
              && r.Failed?
              && CategoryOfMessage(r.message) == CategoryOf(g.thrown.error)
              && (CategoryOf(g.thrown.error) == Other ==> r.message == GenericPrefix + g.thrown.error.message)
    // hitting the step ceiling is reported in the category of the runtime's error
    ensures Conversation.Invoke(saved, query, budget, model, runTool).RecursionLimit? ==>
              && r.Failed?
              && CategoryOfMessage(r.message) == CategoryOf(limitError)
              && (CategoryOf(limitError) == Other ==> r.message == GenericPrefix + limitError.message)
    // every failure is thrown again as one of the three user-facing messages
    ensures r.Failed? ==>
              r.message == RateLimitText || r.message == AuthFailureText || GenericPrefix <= r.message
  {
    var g := Conversation.Invoke(saved, query, budget, model, runTool);
    match g
    case Finished(h) => Reply(Conversation.Content(Conversation.Last(h)))
    case RecursionLimit(_) =>
      UserMessageDistinguishesCategories(limitError);
      Failed(UserMessage(limitError))
    case NodeFailed(t, _) =>
      UserMessageDistinguishesCategories(AsApiError(t));
      Failed(UserMessage(AsApiError(t)))
  }

  /** Example: a tool request followed by a plain answer makes `callAgent`
      return the answer's text. */
  lemma OneToolRoundReplies(saved: seq<Conversation.Message>, query: string, budget: nat,
                            model: nat -> nat -> Retry.Outcome<Conversation.AiMessage>,
                            runTool: Conversation.ToolCall -> string, limitError: ApiError,
                            call: Conversation.ToolCall, first: string, answer: string)
    requires budget >= 3
    requires model(0)(1) == Retry.Ok(Conversation.AiMessage(first, [call]))
    requires model(1)(1) == Retry.Ok(Conversation.AiMessage(answer, []))
    ensures CallAgent(saved, query, budget, model, runTool, limitError) == Reply(answer)
  {
    Conversation.OneToolRoundThenAnswer(saved, query, budget, model, runTool, call, first, answer);
  }

  /** A model that is rate limited on every attempt of the first agent visit
      makes `callAgent` throw the rate-limit message: the wrapper rethrows the
      last 429 rather than its generic error. */
  lemma PersistentRateLimitReported(saved: seq<Conversation.Message>, query: string, budget: nat,
                                    model: nat -> nat -> Retry.Outcome<Conversation.AiMessage>,
                                    runTool: Conversation.ToolCall -> string, limitError: ApiError)
    requires budget > 0
    requires forall a :: 1 <= a <= Retry.DefaultMaxRetries ==> Retry.IsRateLimited(model(0)(a))
    ensures CallAgent(saved, query, budget, model, runTool, limitError) == Failed(RateLimitText)
  {
    Retry.PersistentRateLimitRethrown(model(0), Retry.DefaultMaxRetries, Retry.Retry(model(0), Retry.DefaultMaxRetries));
  }

  /** An authentication failure is not retried and is reported as such. */
  lemma AuthFailureReported(saved: seq<Conversation.Message>, query: string, budget: nat,
                            model: nat -> nat -> Retry.Outcome<Conversation.AiMessage>,
                            runTool: Conversation.ToolCall -> string, limitError: ApiError)
    requires budget > 0
    requires model(0)(1).Err? && IsAuthFailure(model(0)(1).error)
    ensures Retry.Retry(model(0), Retry.DefaultMaxRetries).calls == 1
    ensures CallAgent(saved, query, budget, model, runTool, limitError) == Failed(AuthFailureText)
  {
    Retry.NonRateLimitRethrownAtOnce(model(0), Retry.DefaultMaxRetries, Retry.Retry(model(0), Retry.DefaultMaxRetries));
  }
}

=== FILE: api_errors.dfy ===
/** Errors thrown by the hosted model and by the graph runtime, as the backend
    inspects them: an optional numeric `status` (HTTP-like) and a `message`. */
module ApiErrors {

  /** `error.status` is compared with `===` against numbers only; anything that
      is not a number (absent, a string, ...) is `NoStatus`. */
  datatype Status = NoStatus | Code(code: int)

  datatype ApiError = ApiError(status: Status, message: string)

  /** The rate-limit status code the retry wrapper and `callAgent` test for. */
  const RateLimitCode: int := 429

  /** The authentication-failure status code `callAgent` tests for. */
  const AuthFailureCode: int := 401

  predicate IsRateLimit(e: ApiError) {
    e.status == Code(RateLimitCode)
  }

  predicate IsAuthFailure(e: ApiError) {
    e.status == Code(AuthFailureCode)
  }

  /** A plain `new Error(message)`: it carries no status. */
  function PlainError(message: string): (e: ApiError)
    ensures !IsRateLimit(e) && !IsAuthFailure(e)
    ensures e.message == message
  {
    ApiError(NoStatus, message)
  }
}

=== FILE: conversation.dfy ===
/** The two-node agent/tools workflow that `callAgent` builds: the message
    history with its concatenating reducer, the `shouldContinue` routing
    decision, and a run of the graph from `agent` until it ends.

    The hosted model is a script: `model(k)` is the unit of work called on the
    `k`-th visit of the `agent` node (counted from 0), handed to the retry
    wrapper with its default attempt count. The tool body behind the `tools`
    node is the parameter `runTool`. The graph runtime's step ceiling is an
    explicit `budget` of node executions. */
module Conversation {
  import opened ApiErrors
  import Retry
  import ItemLookup

  /** A tool invocation requested by the model. The only tool is
      `item_lookup`, so `name` normally names it; `query` and `n` are its
      arguments, with `n` possibly left out (`ItemLookup.LookupCall`). The
      tools node's text for a call is `runTool(call)`, which also covers the
      error text for a call naming an unknown tool. */
  datatype ToolCall = ToolCall(id: string, name: string, query: string, n: ItemLookup.RequestedLimit)

  /** A message produced by the model: text plus the tool invocations it requests. */
  datatype AiMessage = AiMessage(content: string, toolCalls: seq<ToolCall>)

  datatype Message =
    | Human(text: string)
    | Ai(reply: AiMessage)
    | ToolOutput(output: string, toolCallId: string)

  function Content(m: Message): string {
    match m
    case Human(t) => t
    case Ai(r) => r.content
    case ToolOutput(o, _) => o
  }

  /** `tool_calls`, which only model messages carry. */
  function ToolCallsOf(m: Message): seq<ToolCall> {
    if m.Ai? then m.reply.toolCalls else []
  }

  datatype Node = AgentNode | ToolsNode | End

  /** The reducer of the `messages` channel: the update is concatenated after
      the existing history. */
  function Reduce(history: seq<Message>, update: seq<Message>): (r: seq<Message>)
    ensures |r| == |history| + |update|
    ensures r[..|history|] == history
    ensures r[|history|..] == update
  {
    history + update
  }

  function Last(history: seq<Message>): Message
    requires |history| > 0
  {
    history[|history| - 1]
  }

  /** `shouldContinue`: route to the tools node exactly when the latest
      message requests at least one tool call, and end otherwise. It never
      routes back to the agent itself. */
  function ShouldContinue(history: seq<Message>): (next: Node)
    requires |history| > 0
    ensures next == ToolsNode <==> Last(history).Ai? && |Last(history).reply.toolCalls| > 0
    ensures next == End <==> !(Last(history).Ai? && |Last(history).reply.toolCalls| > 0)
  {
    if |ToolCallsOf(Last(history))| > 0 then ToolsNode else End
  }

  /** One visit of the agent node whose model call returned `reply`. */
  function AgentStep(history: seq<Message>, reply: AiMessage): (r: seq<Message>)
    ensures |r| == |history| + 1
    ensures r[..|history|] == history
    ensures Last(r) == Ai(reply)
  {
    Reduce(history, [Ai(reply)])
  }

  /** The messages the tools node adds: one tool output per requested call,
      in the order of the calls. */
  function ToolOutputs(calls: seq<ToolCall>, runTool: ToolCall -> string): (out: seq<Message>)
    ensures |out| == |calls|
    ensures forall i :: 0 <= i < |calls| ==> out[i] == ToolOutput(runTool(calls[i]), calls[i].id)
  {
    seq(|calls|, i requires 0 <= i < |calls| => ToolOutput(runTool(calls[i]), calls[i].id))
  }

  /** One visit of the tools node: executes every call the latest message requests. */
  function ToolsStep(history: seq<Message>, runTool: ToolCall -> string): (r: seq<Message>)
    requires |history| > 0
    ensures |r| == |history| + |ToolCallsOf(Last(history))|
    ensures r[..|history|] == history
    ensures forall i :: 0 <= i < |ToolCallsOf(Last(history))| ==>
              r[|history| + i] == ToolOutput(runTool(ToolCallsOf(Last(history))[i]), ToolCallsOf(Last(history))[i].id)
  {
    Reduce(history, ToolOutputs(ToolCallsOf(Last(history)), runTool))
  }

  datatype GraphResult =
    | Finished(history: seq<Message>)
    | RecursionLimit(history: seq<Message>)
    | NodeFailed(thrown: Retry.Thrown, history: seq<Message>)

  /** Attempt `a` of a model call is its first success, answering `reply`,
      after rate limits only. */
  ghost predicate AnsweredAt(fn: nat -> Retry.Outcome<AiMessage>, a: nat, reply: AiMessage) {
    && 1 <= a <= Retry.DefaultMaxRetries
    && fn(a) == Retry.Ok(reply)
    && forall b :: 1 <= b < a ==> Retry.IsRateLimited(fn(b))
  }

  /** Attempt `a` of a model call failed with `e`, after rate limits only. */
  ghost predicate FailedAt(fn: nat -> Retry.Outcome<AiMessage>, a: nat, e: ApiError) {
    && 1 <= a <= Retry.DefaultMaxRetries
    && fn(a) == Retry.Err(e)
    && forall b :: 1 <= b < a ==> Retry.IsRateLimited(fn(b))
  }

  /** `m` is a message a node of the graph can add from visit `k` on: a reply
      of the model, or the output of a tool call. */
  ghost predicate Produced(model: nat -> nat -> Retry.Outcome<AiMessage>, runTool: ToolCall -> string, k: nat, m: Message) {
    || (m.Ai? && exists j, a :: k <= j && AnsweredAt(model(j), a, m.reply))
    || (exists c :: m == ToolOutput(runTool(c), c.id))
  }

  /** What is produced from a later visit on is produced from an earlier one on. */
  lemma ProducedEarlier(model: nat -> nat -> Retry.Outcome<AiMessage>, runTool: ToolCall -> string, k: nat,
                        ms: seq<Message>, from: nat)
    requires forall i :: from <= i < |ms| ==> Produced(model, runTool, k + 1, ms[i])
    ensures forall i :: from <= i < |ms| ==> Produced(model, runTool, k, ms[i])
  {
  }

  /** The model call of one agent visit, through the retry wrapper with its
      default of three attempts. A reply is the first success; a thrown error
      is the error of the last call made, and is a rate limit only once all
      three attempts were rate limited. The wrapper's generic error never
      escapes. */
  function ModelCall(fn: nat -> Retry.Outcome<AiMessage>): (r: Retry.Result<AiMessage>)
    // the result is that of a run of the wrapper on `fn`
    ensures exists run :: Retry.IsRetryRun(fn, Retry.DefaultMaxRetries, run) && r == run.result
    ensures r.Returned? ==> exists a :: AnsweredAt(fn, a, r.value)
    ensures r.Threw? ==> r.thrown.Rethrown? && exists a :: FailedAt(fn, a, r.thrown.error)
    ensures r.Threw? && IsRateLimit(r.thrown.error) ==>
              forall a :: 1 <= a <= Retry.DefaultMaxRetries ==> Retry.IsRateLimited(fn(a))
  {
    var run := Retry.Retry(fn, Retry.DefaultMaxRetries);
    assert 1 <= run.calls <= Retry.DefaultMaxRetries;
    assert fn(run.calls).Ok? ==> AnsweredAt(fn, run.calls, fn(run.calls).value);
    assert fn(run.calls).Err? ==> FailedAt(fn, run.calls, fn(run.calls).error);
    run.result
  }

  /** The first attempt decides an answer or a failure, unless it was rate limited. */
  lemma FirstAttemptDecides(fn: nat -> Retry.Outcome<AiMessage>)
    ensures forall a, reply :: AnsweredAt(fn, a, reply) ==>
              (a == 1 && fn(1) == Retry.Ok(reply)) || Retry.IsRateLimited(fn(1))
    ensures forall a, e :: FailedAt(fn, a, e) ==>
              (a == 1 && fn(1) == Retry.Err(e)) || Retry.IsRateLimited(fn(1))
  {
  }

  /** A first attempt that succeeds is the visit's reply. */
  lemma FirstAttemptAnswers(fn: nat -> Retry.Outcome<AiMessage>)
    requires fn(1).Ok?
    ensures ModelCall(fn) == Retry.Returned(fn(1).value)
  {
    FirstAttemptDecides(fn);
  }

  /** Run the graph from the agent node, with `budget` node executions left,
      `k` being the number of agent visits so far. The history is
      append-only: every outcome's history extends the history the run
      started from. A finished run ends on a model message that requests no
      tool, so `shouldContinue` routes it to the end; that message is a reply
      of the model. A failed node is always an error rethrown from a model
      call. */
  function RunAgent(history: seq<Message>, budget: nat, k: nat,
                    model: nat -> nat -> Retry.Outcome<AiMessage>, runTool: ToolCall -> string): (g: GraphResult)
    ensures history <= g.history
    // everything the run appends is a model reply or a tool output
    ensures forall i :: |history| <= i < |g.history| ==> Produced(model, runTool, k, g.history[i])
    ensures g.Finished? ==>
              && |g.history| > |history|
              && Last(g.history).Ai?
              && Last(g.history).reply.toolCalls == []
              && ShouldContinue(g.history) == End
    // a final reply, and a failed node's error, come from the model script of
    // a visit from the `k`-th on
    ensures g.Finished? ==> exists j, a :: k <= j && AnsweredAt(model(j), a, Last(g.history).reply)
    ensures g.NodeFailed? ==>
              && g.thrown.Rethrown?
              && exists j, a :: k <= j && FailedAt(model(j), a, g.thrown.error)
    decreases budget
  {
    if budget == 0 then RecursionLimit(history)
    else
      match ModelCall(model(k))
      case Threw(t) => NodeFailed(t, history)
      case Returned(reply) =>
        var h := AgentStep(history, reply);
        if ShouldContinue(h) == ToolsNode then
          var g := RunTools(h, budget - 1, k + 1, model, runTool);
          ProducedEarlier(model, runTool, k, g.history, |h|);
          g
        else Finished(h)
  }

  /** Run the graph from the tools node; the tools node always returns to the
      agent. The same guarantees hold as for a run from the agent node. */
  function RunTools(history: seq<Message>, budget: nat, k: nat,
                    model: nat -> nat -> Retry.Outcome<AiMessage>, runTool: ToolCall -> string): (g: GraphResult)
    requires |history| > 0
    ensures history <= g.history
    // everything the run appends is a model reply or a tool output
    ensures forall i :: |history| <= i < |g.history| ==> Produced(model, runTool, k, g.history[i])
    ensures g.Finished? ==>
              && |g.history| > |history|
              && Last(g.history).Ai?
              && Last(g.history).reply.toolCalls == []
              && ShouldContinue(g.history) == End
    // a final reply, and a failed node's error, come from the model script of
    // a visit from the `k`-th on
    ensures g.Finished? ==> exists j, a :: k <= j && AnsweredAt(model(j), a, Last(g.history).reply)
    ensures g.NodeFailed? ==>
              && g.thrown.Rethrown?
              && exists j, a :: k <= j && FailedAt(model(j), a, g.thrown.error)
    decreases budget
  {
    if budget == 0 then RecursionLimit(history)
    else RunAgent(ToolsStep(history, runTool), budget - 1, k, model, runTool)
  }

  /** `app.invoke` with a new user message on a thread whose stored history is
      `saved`: the outcome's history starts with the stored history and the
      user message, and everything after them was produced by the nodes. A
      final reply, and a failed node's error, come from the model script. */
  function Invoke(saved: seq<Message>, query: string, budget: nat,
                  model: nat -> nat -> Retry.Outcome<AiMessage>, runTool: ToolCall -> string): (g: GraphResult)
    ensures saved + [Human(query)] <= g.history
    ensures forall i :: |saved| + 1 <= i < |g.history| ==> Produced(model, runTool, 0, g.history[i])
    ensures g.Finished? ==>
              && |g.history| > |saved| + 1
              && Last(g.history).Ai?
              && Last(g.history).reply.toolCalls == []
    ensures g.Finished? ==> exists j, a :: AnsweredAt(model(j), a, Last(g.history).reply)
    ensures g.NodeFailed? ==> g.thrown.Rethrown? && exists j, a :: FailedAt(model(j), a, g.thrown.error)
  {
    RunAgent(Reduce(saved, [Human(query)]), budget, 0, model, runTool)
  }

  // ---------------------------------------------------------------------------
  // Properties of a run.

  /** The model requests a tool on the first try of every agent visit. */
  ghost predicate AlwaysRequestsTools(model: nat -> nat -> Retry.Outcome<AiMessage>) {
    forall k :: RequestsTools(model, k)
  }

  /** The first attempt of agent visit `k` succeeds with a tool request. */
  ghost predicate RequestsTools(model: nat -> nat -> Retry.Outcome<AiMessage>, k: nat) {
    model(k)(1).Ok? && |model(k)(1).value.toolCalls| > 0
  }

  /** A model that requests a tool on the first attempt of every visit never
      finishes and never fails: the run stops at the step ceiling, whatever
      the budget. */
  lemma EndlessToolCallsHitLimit(history: seq<Message>, budget: nat, k: nat,
                                 model: nat -> nat -> Retry.Outcome<AiMessage>, runTool: ToolCall -> string)
    requires AlwaysRequestsTools(model)
    ensures RunAgent(history, budget, k, model, runTool).RecursionLimit?
  {
    var g := RunAgent(history, budget, k, model, runTool);
    if g.Finished? {
      var j, a :| k <= j && AnsweredAt(model(j), a, Last(g.history).reply);
      assert RequestsTools(model, j);
      FirstAttemptDecides(model(j));
      assert false;
    } else if g.NodeFailed? {
      var j, a :| k <= j && FailedAt(model(j), a, g.thrown.error);
      assert RequestsTools(model, j);
      FirstAttemptDecides(model(j));
      assert false;
    }
  }

  /** An agent visit whose first attempt succeeds appends that reply, then
      goes to the tools node if the reply requests a tool and ends otherwise. */
  lemma FirstAttemptStep(history: seq<Message>, budget: nat, k: nat,
                         model: nat -> nat -> Retry.Outcome<AiMessage>, runTool: ToolCall -> string)
    requires budget > 0
    requires model(k)(1).Ok?
    ensures var h := AgentStep(history, model(k)(1).value);
            RunAgent(history, budget, k, model, runTool)
            == if |model(k)(1).value.toolCalls| > 0 then RunTools(h, budget - 1, k + 1, model, runTool)
               else Finished(h)
  {
    FirstAttemptAnswers(model(k));
  }

  /** A tools visit for a single requested call appends that call's output. */
  lemma SingleToolCall(history: seq<Message>, call: ToolCall, runTool: ToolCall -> string)
    requires |history| > 0 && ToolCallsOf(Last(history)) == [call]
    ensures ToolsStep(history, runTool) == history + [ToolOutput(runTool(call), call.id)]
  {
  }

  /** The histories of one tool round: the request, the tool's output, then
      the answer. */
  lemma RoundHistories(history: seq<Message>, runTool: ToolCall -> string,
                       call: ToolCall, first: string, answer: string)
    ensures var h1 := AgentStep(history, AiMessage(first, [call]));
            && ToolsStep(h1, runTool) == h1 + [ToolOutput(runTool(call), call.id)]
            && AgentStep(h1 + [ToolOutput(runTool(call), call.id)], AiMessage(answer, []))
               == history + [Ai(AiMessage(first, [call])), ToolOutput(runTool(call), call.id), Ai(AiMessage(answer, []))]
  {
    var h1 := AgentStep(history, AiMessage(first, [call]));
    SingleToolCall(h1, call, runTool);
  }

  /** The tools node hands its extended history back to the agent. */
  lemma ToolsHandBack(history: seq<Message>, budget: nat, k: nat,
                      model: nat -> nat -> Retry.Outcome<AiMessage>, runTool: ToolCall -> string)
    requires |history| > 0 && budget > 0
    ensures RunTools(history, budget, k, model, runTool)
            == RunAgent(ToolsStep(history, runTool), budget - 1, k, model, runTool)
  {
  }

  /** A tool request followed by a plain answer, from any history: one tools
      visit, then the answer ends the run. */
  lemma ToolRoundThenAnswer(history: seq<Message>, budget: nat, k: nat,
                            model: nat -> nat -> Retry.Outcome<AiMessage>, runTool: ToolCall -> string,
                            call: ToolCall, first: string, answer: string)
    requires budget >= 3
    requires model(k)(1) == Retry.Ok(AiMessage(first, [call]))
    requires model(k + 1)(1) == Retry.Ok(AiMessage(answer, []))
    ensures RunAgent(history, budget, k, model, runTool)
            == Finished(history + [Ai(AiMessage(first, [call])), ToolOutput(runTool(call), call.id), Ai(AiMessage(answer, []))])
  {
    var h1 := AgentStep(history, AiMessage(first, [call]));
    RoundHistories(history, runTool, call, first, answer);
    FirstAttemptStep(history, budget, k, model, runTool);
    ToolsHandBack(h1, budget - 1, k + 1, model, runTool);
    FirstAttemptStep(ToolsStep(h1, runTool), budget - 2, k + 1, model, runTool);
  }

  /** Example: the first model reply requests one tool call, the second is a
      plain answer; with three node executions available the run finishes
      after exactly one tools visit, with the plain answer as final message. */
  lemma OneToolRoundThenAnswer(saved: seq<Message>, query: string, budget: nat,
                               model: nat -> nat -> Retry.Outcome<AiMessage>, runTool: ToolCall -> string,
                               call: ToolCall, first: string, answer: string)
    requires budget >= 3
    requires model(0)(1) == Retry.Ok(AiMessage(first, [call]))
    requires model(1)(1) == Retry.Ok(AiMessage(answer, []))
    ensures Invoke(saved, query, budget, model, runTool)
            == Finished(saved + [Human(query), Ai(AiMessage(first, [call])),
                                 ToolOutput(runTool(call), call.id), Ai(AiMessage(answer, []))])
  {
    ToolRoundThenAnswer(saved + [Human(query)], budget, 0, model, runTool, call, first, answer);
  }
}

=== FILE: item_lookup.dfy ===
/** The body of the `item_lookup` tool: count the catalog, short-circuit on an
    empty one, run a vector similarity search, fall back to a pattern search
    over a few text fields, and turn any failure into an error result.

    The catalog is abstract: each access either yields its answer or fails
    with a message. The similarity search and the pattern search are functions
    of the query (and of the requested size for the similarity search); how
    they rank or match is the catalog's business. */
module ItemLookup {

  datatype Fallible<T> = Ok(value: T) | Fail(message: string)

  datatype Catalog<D> = Catalog(
    /** `collection.countDocuments()` */
    countDocuments: Fallible<nat>,
    /** `collection.find({}).limit(3)`, read for logging only */
    sample: Fallible<seq<D>>,
    /** `similaritySearchWithScore(query, n)`: documents with their scores */
    similaritySearch: (string, int) -> Fallible<seq<(D, real)>>,
    /** every document whose name, description, categories or summary matches
        the query used as a case-insensitive pattern, in collection order,
        before `.limit(n)` is applied */
    patternSearch: string -> Fallible<seq<D>>)

  /** The catalog accesses a lookup performs, in order. */
  datatype CatalogOp = CountDocuments | FetchSample | SimilaritySearch(query: string, k: int) | PatternSearch(query: string, limit: int)

  datatype SearchType = Vector | Text

  datatype Entry<D> = Scored(doc: D, score: real) | Plain(doc: D)

  const EmptyError: string := "No items found in inventory"
  const EmptyMessage: string := "The inventory database appears to be empty"
  const FailedError: string := "Failed to search inventory"
  /** `n` when the tool call gives none. */
  const DefaultLimit: int := 10

  /** The JSON object the tool returns, one variant per shape. */
  datatype LookupResult<D> =
    | EmptyInventory(error: string, message: string, count: nat)
    | Matches(results: seq<Entry<D>>, searchType: SearchType, query: string, count: nat)
    | LookupFailed(error: string, details: string, query: string)

  datatype LookupRun<D> = LookupRun(result: LookupResult<D>, ops: seq<CatalogOp>)

  /** The `n` of a tool call, which the call may leave out. */
  datatype RequestedLimit = Unspecified | Given(n: int)

  /** The `n` a tool call asks for, with its default. */
  function EffectiveLimit(n: RequestedLimit): (limit: int)
    ensures n.Unspecified? ==> limit == DefaultLimit
    ensures n.Given? ==> limit == n.n
  {
    match n
    case Given(v) => v
    case Unspecified => DefaultLimit
  }

  /** A cursor's `.limit(n)`: `0` means no limit, a negative `n` returns at
      most `-n` documents (in a single batch). */
  function ApplyLimit<D>(docs: seq<D>, n: int): (r: seq<D>)
    ensures r <= docs
    ensures n == 0 ==> r == docs
    ensures n != 0 ==> |r| == if |docs| <= Abs(n) then |docs| else Abs(n)
  {
    if n == 0 || |docs| <= Abs(n) then docs else docs[..Abs(n)]
  }

  function Abs(n: int): nat {
    if n < 0 then -n else n
  }

  function ScoredEntries<D>(hits: seq<(D, real)>): (r: seq<Entry<D>>)
    ensures |r| == |hits|
    ensures forall i :: 0 <= i < |hits| ==> r[i] == Scored(hits[i].0, hits[i].1)
  {
    seq(|hits|, i requires 0 <= i < |hits| => Scored(hits[i].0, hits[i].1))
  }

  function PlainEntries<D>(docs: seq<D>): (r: seq<Entry<D>>)
    ensures |r| == |docs|
    ensures forall i :: 0 <= i < |docs| ==> r[i] == Plain(docs[i])
  {
    seq(|docs|, i requires 0 <= i < |docs| => Plain(docs[i]))
  }

  function Failed<D>(message: string, query: string, ops: seq<CatalogOp>): LookupRun<D> {
    LookupRun(LookupFailed(FailedError, message, query), ops)
  }

  /** Whether a performed access succeeded, and with which message it failed. */
  function OpOutcome<D>(catalog: Catalog<D>, op: CatalogOp): Fallible<()> {
    match op
    case CountDocuments => if catalog.countDocuments.Fail? then Fail(catalog.countDocuments.message) else Ok(())
    case FetchSample => if catalog.sample.Fail? then Fail(catalog.sample.message) else Ok(())
    case SimilaritySearch(q, k) => var s := catalog.similaritySearch(q, k); if s.Fail? then Fail(s.message) else Ok(())
    case PatternSearch(q, _) => var s := catalog.patternSearch(q); if s.Fail? then Fail(s.message) else Ok(())
  }

  /** The tool body for a query and a requested result count `n`. */
  function Lookup<D>(catalog: Catalog<D>, query: string, n: int): (r: LookupRun<D>)
    // the accesses are a prefix of: count, sample, similarity search, pattern search
    ensures 1 <= |r.ops|
    ensures r.ops <= [CountDocuments, FetchSample, SimilaritySearch(query, n), PatternSearch(query, n)]
    // the run stops before the pattern search only on an empty catalog, on a
    // failed access, or when the similarity search found something
    ensures |r.ops| < 4 ==>
              || catalog.countDocuments == Ok(0)
              || OpOutcome(catalog, r.ops[|r.ops| - 1]).Fail?
              || (catalog.similaritySearch(query, n).Ok? && |catalog.similaritySearch(query, n).value| > 0)
    // an empty catalog, and only an empty one, gives the count-0 error result,
    // and nothing is searched
    ensures r.result.EmptyInventory? <==> catalog.countDocuments == Ok(0)
    ensures catalog.countDocuments == Ok(0) ==>
              r == LookupRun(EmptyInventory(EmptyError, EmptyMessage, 0), [CountDocuments])
    // a successful search result reports its own size and echoes the query
    ensures r.result.Matches? ==> r.result.count == |r.result.results| && r.result.query == query
    // the search type names the search that produced the results
    ensures r.result.Matches? && r.result.searchType == Vector ==>
              && r.ops == [CountDocuments, FetchSample, SimilaritySearch(query, n)]
              && catalog.similaritySearch(query, n).Ok?
              && r.result.results == ScoredEntries(catalog.similaritySearch(query, n).value)
              && |r.result.results| > 0
    ensures r.result.Matches? && r.result.searchType == Text ==>
              && r.ops == [CountDocuments, FetchSample, SimilaritySearch(query, n), PatternSearch(query, n)]
              && catalog.similaritySearch(query, n) == Ok([])
              && catalog.patternSearch(query).Ok?
              && r.result.results == PlainEntries(ApplyLimit(catalog.patternSearch(query).value, n))
    // the pattern search is reached only after an empty similarity search
    ensures PatternSearch(query, n) in r.ops ==> catalog.similaritySearch(query, n) == Ok([])
    // failures never escape: an error result carries the message of the access
    // that failed (the last one performed), all earlier accesses succeeded
    ensures r.result.LookupFailed? <==> OpOutcome(catalog, r.ops[|r.ops| - 1]).Fail?
    ensures r.result.LookupFailed? ==>
              && r.result.error == FailedError
              && r.result.query == query
              && r.result.details == OpOutcome(catalog, r.ops[|r.ops| - 1]).message
    ensures forall i :: 0 <= i < |r.ops| - 1 ==> OpOutcome(catalog, r.ops[i]).Ok?
  {
    match catalog.countDocuments
    case Fail(msg) => Failed(msg, query, [CountDocuments])
    case Ok(total) =>
      if total == 0 then
        LookupRun(EmptyInventory(EmptyError, EmptyMessage, 0), [CountDocuments])
      else
        match catalog.sample
        case Fail(msg) => Failed(msg, query, [CountDocuments, FetchSample])
        case Ok(_) =>
          var ops := [CountDocuments, FetchSample, SimilaritySearch(query, n)];
          match catalog.similaritySearch(query, n)
          case Fail(msg) => Failed(msg, query, ops)
          case Ok(hits) =>
            if |hits| == 0 then
              match catalog.patternSearch(query)
              case Fail(msg) => Failed(msg, query, ops + [PatternSearch(query, n)])
              case Ok(docs) =>
                var found := PlainEntries(ApplyLimit(docs, n));
                LookupRun(Matches(found, Text, query, |found|), ops + [PatternSearch(query, n)])
            else
              LookupRun(Matches(ScoredEntries(hits), Vector, query, |hits|), ops)
  }

  /** The tool as the model calls it: `n` defaults to 10 when left out. */
  function LookupCall<D>(catalog: Catalog<D>, query: string, n: RequestedLimit): (r: LookupRun<D>)
    ensures n.Unspecified? ==> r == Lookup(catalog, query, DefaultLimit)
    ensures n.Given? ==> r == Lookup(catalog, query, n.n)
    ensures n.Unspecified? && |r.ops| > 2 ==> r.ops[2] == SimilaritySearch(query, 10)
  {
    Lookup(catalog, query, EffectiveLimit(n))
  }

  /** Whichever access fails, the tool answers with the generic error result,
      the failure's message and the query; nothing after the failing access
      is performed. */
  lemma FailuresReported<D>(catalog: Catalog<D>, query: string, n: int)
    ensures catalog.countDocuments.Fail? ==>
              Lookup(catalog, query, n)
                == LookupRun(LookupFailed(FailedError, catalog.countDocuments.message, query), [CountDocuments])
    ensures catalog.countDocuments.Ok? && catalog.countDocuments.value > 0 && catalog.sample.Fail? ==>
              Lookup(catalog, query, n)
                == LookupRun(LookupFailed(FailedError, catalog.sample.message, query), [CountDocuments, FetchSample])
    ensures catalog.countDocuments.Ok? && catalog.countDocuments.value > 0 && catalog.sample.Ok?
            && catalog.similaritySearch(query, n).Fail? ==>
              Lookup(catalog, query, n)
                == LookupRun(LookupFailed(FailedError, catalog.similaritySearch(query, n).message, query),
                             [CountDocuments, FetchSample, SimilaritySearch(query, n)])
    ensures catalog.countDocuments.Ok? && catalog.countDocuments.value > 0 && catalog.sample.Ok?
            && catalog.similaritySearch(query, n) == Ok([]) && catalog.patternSearch(query).Fail? ==>
              Lookup(catalog, query, n)
                == LookupRun(LookupFailed(FailedError, catalog.patternSearch(query).message, query),
                             [CountDocuments, FetchSample, SimilaritySearch(query, n), PatternSearch(query, n)])
  {
  }

  /** Non-empty similarity hits are returned as they are, tagged `vector`. */
  lemma VectorHitsReturned<D>(catalog: Catalog<D>, query: string, n: int, total: nat, hits: seq<(D, real)>)
    requires catalog.countDocuments == Ok(total) && total > 0
    requires catalog.sample.Ok?
    requires catalog.similaritySearch(query, n) == Ok(hits) && |hits| > 0
    ensures Lookup(catalog, query, n).result == Matches(ScoredEntries(hits), Vector, query, |hits|)
  {
  }

  /** With no similarity hit, the pattern matches are returned in collection
      order, cut to `n`, tagged `text`. */
  lemma PatternFallback<D>(catalog: Catalog<D>, query: string, n: int, total: nat, docs: seq<D>)
    requires catalog.countDocuments == Ok(total) && total > 0
    requires catalog.sample.Ok?
    requires catalog.similaritySearch(query, n) == Ok([])
    requires catalog.patternSearch(query) == Ok(docs)
    ensures var r := Lookup(catalog, query, n).result;
            && r.Matches? && r.searchType == Text
            && |r.results| <= |docs|
            && (n > 0 ==> r.count <= n)
            && forall i :: 0 <= i < |r.results| ==> r.results[i] == Plain(docs[i])
  {
  }

  /** Example: one pattern match and no similarity hit give exactly one
      text-mode result, for every `n`. */
  lemma SinglePatternMatch<D>(catalog: Catalog<D>, query: string, n: int, total: nat, d: D)
    requires catalog.countDocuments == Ok(total) && total > 0
    requires catalog.sample.Ok?
    requires catalog.similaritySearch(query, n) == Ok([])
    requires catalog.patternSearch(query) == Ok([d])
    ensures Lookup(catalog, query, n).result == Matches([Plain(d)], Text, query, 1)
  {
    assert ApplyLimit([d], n) == [d];
    assert PlainEntries([d]) == [Plain(d)];
  }
}

=== FILE: item_summary.dfy ===
/** `createItemSummary`: the text from which a catalog item's embedding is
    computed. Number-to-text conversion is the parameter `show` (the runtime's
    number formatting); everything else is plain concatenation. */
module ItemSummary {

  datatype Address = Address(street: string, city: string, state: string, postalCode: string, country: string)

  datatype Prices = Prices(fullPrice: real, salePrice: real)

  datatype Review = Review(reviewDate: string, rating: real, comment: string)

  datatype Item = Item(
    itemId: string,
    itemName: string,
    itemDescription: string,
    brand: string,
    manufacturerAddress: Address,
    prices: Prices,
    categories: seq<string>,
    userReviews: seq<Review>,
    notes: string)

  // ---------------------------------------------------------------------------
  // Joining strings, as `Array.prototype.join` does for arrays of strings.

  function Join(parts: seq<string>, sep: string): (r: string)
    ensures |parts| == 0 ==> r == ""
    ensures |parts| == 1 ==> r == parts[0]
    decreases |parts|
  {
    if |parts| == 0 then ""
    else if |parts| == 1 then parts[0]
    else parts[0] + sep + Join(parts[1..], sep)
  }

  /** Where part `i` starts in `Join(parts, sep)`: after every earlier part and its separator. */
  function Offset(parts: seq<string>, sep: string, i: nat): nat
    requires i <= |parts|
    decreases i
  {
    if i == 0 then 0 else |parts[0]| + |sep| + Offset(parts[1..], sep, i - 1)
  }

  /** `t` stands in `s` at position `o`. */
  predicate OccursAt(s: string, o: nat, t: string) {
    o + |t| <= |s| && s[o..o + |t|] == t
  }

  /** Every part appears, unchanged, at its offset, followed by the separator
      unless it is the last one, which ends the joined string: the parts keep
      their order and nothing else is added. */
  lemma {:induction false} JoinPlacesParts(parts: seq<string>, sep: string, i: nat)
    requires i < |parts|
    ensures var j := Join(parts, sep); var o := Offset(parts, sep, i);
            && OccursAt(j, o, parts[i])
            && (i + 1 < |parts| ==> OccursAt(j, o + |parts[i]|, sep))
            && (i + 1 == |parts| ==> o + |parts[i]| == |j|)
    decreases i
  {
    var j := Join(parts, sep);
    if i == 0 {
      if |parts| > 1 {
        assert j == parts[0] + sep + Join(parts[1..], sep);
        assert j[..|parts[0]|] == parts[0];
        assert j[|parts[0]|..|parts[0]| + |sep|] == sep;
      }
    } else {
      var rest := parts[1..];
      JoinPlacesParts(rest, sep, i - 1);
      var head := parts[0] + sep;
      assert j == head + Join(rest, sep);
      ShiftOccurrence(head, Join(rest, sep), Offset(rest, sep, i - 1), parts[i]);
      if i + 1 < |parts| {
        ShiftOccurrence(head, Join(rest, sep), Offset(rest, sep, i - 1) + |parts[i]|, sep);
      }
    }
  }

  lemma ShiftOccurrence(head: string, tail: string, o: nat, t: string)
    requires OccursAt(tail, o, t)
    ensures OccursAt(head + tail, |head| + o, t)
  {
    assert (head + tail)[|head| + o..|head| + o + |t|] == tail[o..o + |t|];
  }

  // ---------------------------------------------------------------------------
  // The segments of a summary.

  function BasicInfo(item: Item): string {
    item.itemName + " " + item.itemDescription + " from the brand " + item.brand
  }

  /** Only the country of the manufacturer's address is used. */
  function ManufacturerDetails(item: Item): string {
    "Made in " + item.manufacturerAddress.country
  }

  function CategoriesText(item: Item): string {
    Join(item.categories, ", ")
  }

  function RenderReview(review: Review, show: real -> string): string {
    "Rated " + show(review.rating) + " on " + review.reviewDate + ": " + review.comment
  }

  /** The rendered reviews, one per review, in the original order. */
  function RenderedReviews(reviews: seq<Review>, show: real -> string): (r: seq<string>)
    ensures |r| == |reviews|
    ensures forall i :: 0 <= i < |reviews| ==> r[i] == RenderReview(reviews[i], show)
  {
    seq(|reviews|, i requires 0 <= i < |reviews| => RenderReview(reviews[i], show))
  }

  function ReviewsText(item: Item, show: real -> string): string {
    Join(RenderedReviews(item.userReviews, show), " ")
  }

  function PriceText(item: Item, show: real -> string): string {
    "At full price it costs: " + show(item.prices.fullPrice) + " USD, On sale it costs: " + show(item.prices.salePrice) + " USD"
  }

  /** The six labelled segments, in the order they appear. */
  function LabelledSegments(item: Item, show: real -> string): (segs: seq<string>)
    ensures |segs| == 6
  {
    [ BasicInfo(item),
      "Manufacturer: " + ManufacturerDetails(item),
      "Categories: " + CategoriesText(item),
      "Reviews: " + ReviewsText(item, show),
      "Price: " + PriceText(item, show),
      "Notes: " + item.notes ]
  }

  /** The summary of an item: the labelled segments joined by `". "`. */
  function Summary(item: Item, show: real -> string): (s: string)
    ensures s == Join(LabelledSegments(item, show), ". ")
  {
    TemplateIsJoin(BasicInfo(item), ManufacturerDetails(item), CategoriesText(item),
                   ReviewsText(item, show), PriceText(item, show), item.notes);
    BasicInfo(item) + ". Manufacturer: " + ManufacturerDetails(item) + ". Categories: " + CategoriesText(item)
      + ". Reviews: " + ReviewsText(item, show) + ". Price: " + PriceText(item, show) + ". Notes: " + item.notes
  }

  /** Appending a part appends the separator and the part. */
  lemma {:induction false} JoinSnoc(parts: seq<string>, x: string, sep: string)
    requires |parts| > 0
    ensures Join(parts + [x], sep) == Join(parts, sep) + sep + x
    decreases |parts|
  {
    if |parts| > 1 {
      var rest := parts[1..];
      assert (parts + [x])[1..] == rest + [x];
      JoinSnoc(rest, x, sep);
      var p0 := parts[0] + sep;
      var jr := Join(rest, sep);
      assert Join(parts + [x], sep) == p0 + (jr + sep + x);
      assert p0 + (jr + sep + x) == (p0 + jr) + sep + x;
    } else {
      assert parts + [x] == [parts[0], x];
      assert [parts[0], x][1..] == [x];
    }
  }

  lemma Regroup(a: string, b: string, c: string, d: string)
    ensures a + (b + c) + d == a + b + (c + d)
  {
    assert a + (b + c) + d == (a + b) + (c + d);
  }

  /** One step of the template: a label `". L"` after the text so far is the
      separator `". "` followed by the labelled segment. */
  lemma LabelStep(parts: seq<string>, tag: string, x: string)
    requires |parts| > 0
    ensures Join(parts, ". ") + (". " + tag) + x == Join(parts + [tag + x], ". ")
  {
    JoinSnoc(parts, tag + x, ". ");
    Regroup(Join(parts, ". "), ". ", tag, x);
  }

  /** The summary's template is a join of its labelled segments. */
  lemma TemplateIsJoin(b: string, m: string, c: string, r: string, p: string, n: string)
    ensures b + ". Manufacturer: " + m + ". Categories: " + c + ". Reviews: " + r + ". Price: " + p + ". Notes: " + n
            == Join([b, "Manufacturer: " + m, "Categories: " + c, "Reviews: " + r, "Price: " + p, "Notes: " + n], ". ")
  {
    assert ". Manufacturer: " == ". " + "Manufacturer: ";
    assert ". Categories: " == ". " + "Categories: ";
    assert ". Reviews: " == ". " + "Reviews: ";
    assert ". Price: " == ". " + "Price: ";
    assert ". Notes: " == ". " + "Notes: ";
    var s0 := [b];
    LabelStep(s0, "Manufacturer: ", m);
    var s1 := s0 + ["Manufacturer: " + m];
    LabelStep(s1, "Categories: ", c);
    var s2 := s1 + ["Categories: " + c];
    LabelStep(s2, "Reviews: ", r);
    var s3 := s2 + ["Reviews: " + r];
    LabelStep(s3, "Price: ", p);
    var s4 := s3 + ["Price: " + p];
    LabelStep(s4, "Notes: ", n);
    var s5 := s4 + ["Notes: " + n];
    assert s5 == [b, "Manufacturer: " + m, "Categories: " + c, "Reviews: " + r, "Price: " + p, "Notes: " + n];
  }

  /** Segment `i` (basic information, manufacturer, categories, reviews,
      price, notes) stands at its offset in the summary, each one followed by
      `". "` except the notes, which close it. So the summary starts with the
      basic information and ends with the notes. */
  lemma SegmentsInOrder(item: Item, show: real -> string, i: nat)
    requires i < 6
    ensures var s := Summary(item, show); var segs := LabelledSegments(item, show);
            var o := Offset(segs, ". ", i);
            && OccursAt(s, o, segs[i])
            && (i < 5 ==> OccursAt(s, o + |segs[i]|, ". "))
            && (i == 5 ==> o + |segs[i]| == |s|)
  {
    JoinPlacesParts(LabelledSegments(item, show), ". ", i);
  }

  /** Categories appear in their original order, separated by `", "`, and
      the last one ends the segment. */
  lemma CategoriesInOrder(item: Item, i: nat)
    requires i < |item.categories|
    ensures var c := CategoriesText(item); var o := Offset(item.categories, ", ", i);
            && OccursAt(c, o, item.categories[i])
            && (i + 1 < |item.categories| ==> OccursAt(c, o + |item.categories[i]|, ", "))
            && (i + 1 == |item.categories| ==> o + |item.categories[i]| == |c|)
  {
    JoinPlacesParts(item.categories, ", ", i);
  }

  /** No categories give an empty segment, and a single category stands alone
      without a separator. */
  lemma FewCategories(item: Item)
    ensures item.categories == [] ==> CategoriesText(item) == ""
    ensures |item.categories| == 1 ==> CategoriesText(item) == item.categories[0]
  {
  }

  /** Each review is rendered as "Rated <rating> on <date>: <comment>", and the
      rendered reviews keep their original order, separated by single spaces. */
  lemma ReviewsInOrder(item: Item, show: real -> string, i: nat)
    requires i < |item.userReviews|
    ensures var t := ReviewsText(item, show); var rs := RenderedReviews(item.userReviews, show);
            var o := Offset(rs, " ", i); var r := item.userReviews[i];
            && OccursAt(t, o, "Rated " + show(r.rating) + " on " + r.reviewDate + ": " + r.comment)
            && (i + 1 < |rs| ==> OccursAt(t, o + |rs[i]|, " "))
  {
    JoinPlacesParts(RenderedReviews(item.userReviews, show), " ", i);
  }

  /** The item id and the street, city, state and postal code of the
      manufacturer play no part in the summary. */
  lemma SummaryIgnoresIdAndStreetAddress(a: Item, b: Item, show: real -> string)
    requires a.itemName == b.itemName && a.itemDescription == b.itemDescription && a.brand == b.brand
    requires a.manufacturerAddress.country == b.manufacturerAddress.country
    requires a.prices == b.prices && a.categories == b.categories
    requires a.userReviews == b.userReviews && a.notes == b.notes
    ensures Summary(a, show) == Summary(b, show)
  {
  }

  /** Two occurrences of equally long texts at the same place are the same text. */
  lemma SameOccurrence(s: string, o: nat, x: string, y: string)
    requires OccursAt(s, o, x) && OccursAt(s, o, y) && |x| == |y|
    ensures x == y
  {
  }

  lemma StripPrefix(prefix: string, x: string, y: string)
    requires prefix + x == prefix + y
    ensures x == y
  {
    assert (prefix + x)[|prefix|..] == x;
    assert (prefix + y)[|prefix|..] == y;
  }

  /** The country is recoverable: items that differ only in the country have
      different summaries. */
  lemma SummaryDeterminesCountry(a: Item, b: Item, show: real -> string)
    requires a == b.(manufacturerAddress := b.manufacturerAddress.(country := a.manufacturerAddress.country))
    requires Summary(a, show) == Summary(b, show)
    ensures a == b
  {
    var s := Summary(a, show);
    var sa := LabelledSegments(a, show);
    var sb := LabelledSegments(b, show);
    assert |a.manufacturerAddress.country| == |b.manufacturerAddress.country| by {
      assert |Summary(a, show)| == |Summary(b, show)|;
    }
    assert Offset(sa, ". ", 1) == Offset(sb, ". ", 1);
    SegmentsInOrder(a, show, 1);
    SegmentsInOrder(b, show, 1);
    SameOccurrence(s, Offset(sa, ". ", 1), sa[1], sb[1]);
    StripPrefix("Manufacturer: ", ManufacturerDetails(a), ManufacturerDetails(b));
    StripPrefix("Made in ", a.manufacturerAddress.country, b.manufacturerAddress.country);
  }

  /** The notes are recoverable: items that differ only in their notes have
      different summaries. */
  lemma SummaryDeterminesNotes(a: Item, b: Item, show: real -> string)
    requires a == b.(notes := a.notes)
    requires Summary(a, show) == Summary(b, show)
    ensures a == b
  {
    var prefix := BasicInfo(a) + ". Manufacturer: " + ManufacturerDetails(a) + ". Categories: " + CategoriesText(a)
      + ". Reviews: " + ReviewsText(a, show) + ". Price: " + PriceText(a, show) + ". Notes: ";
    assert Summary(a, show) == prefix + a.notes;
    assert Summary(b, show) == prefix + b.notes;
    StripPrefix(prefix, a.notes, b.notes);
  }

  /** The price segment names the full price and then the sale price, each in USD. */
  lemma PriceSegmentContents(item: Item, show: real -> string)
    ensures var p := PriceText(item, show); var full := "At full price it costs: " + show(item.prices.fullPrice) + " USD";
            && full <= p
            && p[|full|..] == ", On sale it costs: " + show(item.prices.salePrice) + " USD"
  {
    var full := "At full price it costs: " + show(item.prices.fullPrice) + " USD";
    assert PriceText(item, show) == full + (", On sale it costs: " + show(item.prices.salePrice) + " USD");
  }
}

=== FILE: retry.dfy ===
/** `retryWithBackoff`: run a unit of work, retrying after a rate-limit error
    with an exponentially growing, capped delay.

    The unit of work is modelled as a script `fn`: `fn(a)` is the outcome of
    the call made on attempt `a` (attempts are numbered from 1, as in the
    `for` loop of `retryWithBackoff`). Sleeping is not performed; the delays that would be
    slept are returned, in order. */
module Retry {
  import opened ApiErrors

  datatype Outcome<T> = Ok(value: T) | Err(error: ApiError)

  /** What the wrapper throws: either the error of the last call, rethrown
      unchanged, or the generic "Max retries exceeded" error. */
  datatype Thrown = Rethrown(error: ApiError) | MaxRetriesExceeded

  datatype Result<T> = Returned(value: T) | Threw(thrown: Thrown)

  /** The observable behaviour of one run: its result, how many times the
      unit of work was called, and the delays (in milliseconds) slept. */
  datatype RetryRun<T> = RetryRun(result: Result<T>, calls: nat, delays: seq<nat>)

  /** `maxRetries` when the caller gives none. */
  const DefaultMaxRetries: int := 3
  const BaseDelayMs: nat := 1000
  const MaxDelayMs: nat := 30000

  function Pow2(n: nat): (r: nat)
    ensures r >= 1
  {
    if n == 0 then 1 else 2 * Pow2(n - 1)
  }

  /** `Math.min(1000 * Math.pow(2, attempt), 30000)`. */
  function BackoffDelay(attempt: nat): nat {
    if BaseDelayMs * Pow2(attempt) <= MaxDelayMs then BaseDelayMs * Pow2(attempt) else MaxDelayMs
  }

  /** The delays slept after attempts `from`, `from + 1`, ..., `from + count - 1`. */
  function Schedule(from: nat, count: nat): (s: seq<nat>)
    ensures |s| == count
    decreases count
  {
    if count == 0 then [] else [BackoffDelay(from)] + Schedule(from + 1, count - 1)
  }

  predicate IsRateLimited<T>(o: Outcome<T>) {
    o.Err? && IsRateLimit(o.error)
  }

  /** The run that starts at attempt `from` (with `1 <= from`) is `run`:
      - if `from > maxRetries`, no call is made and the generic error is thrown;
      - otherwise calls are made on attempts `from .. last` (with
        `last = from + run.calls - 1 <= maxRetries`), every call before the
        last one failed with a rate limit, one delay is slept after each of
        them, and the last call decides the result: its value if it
        succeeded, its error unchanged if it failed with something other than
        a rate limit or on the final permitted attempt. */
  ghost predicate IsRetryRunFrom<T>(fn: nat -> Outcome<T>, maxRetries: int, from: nat, run: RetryRun<T>)
    requires 1 <= from
  {
    if from > maxRetries then
      run == RetryRun(Threw(MaxRetriesExceeded), 0, [])
    else
      && 1 <= run.calls
      && from + run.calls - 1 <= maxRetries
      && (forall a :: from <= a < from + run.calls - 1 ==> IsRateLimited(fn(a)))
      && run.delays == Schedule(from, run.calls - 1)
      && var last := from + run.calls - 1;
         match fn(last)
         case Ok(v) => run.result == Returned(v)
         case Err(e) =>
           && run.result == Threw(Rethrown(e))
           && (!IsRateLimit(e) || last == maxRetries)
  }

  /** The specification of a whole call of the wrapper. */
  ghost predicate IsRetryRun<T>(fn: nat -> Outcome<T>, maxRetries: int, run: RetryRun<T>) {
    IsRetryRunFrom(fn, maxRetries, 1, run)
  }

  /** The wrapper as a function: the loop of `retryWithBackoff`, one attempt per level of recursion. */
  function RetryFrom<T>(fn: nat -> Outcome<T>, maxRetries: int, attempt: nat): (run: RetryRun<T>)
    requires 1 <= attempt
    ensures IsRetryRunFrom(fn, maxRetries, attempt, run)
    decreases maxRetries - attempt
  {
    if attempt > maxRetries then
      RetryRun(Threw(MaxRetriesExceeded), 0, [])
    else
      match fn(attempt)
      case Ok(v) => RetryRun(Returned(v), 1, [])
      case Err(e) =>
        if IsRateLimit(e) && attempt < maxRetries then
          var rest := RetryFrom(fn, maxRetries, attempt + 1);
          RetryRun(rest.result, rest.calls + 1, [BackoffDelay(attempt)] + rest.delays)
        else
          RetryRun(Threw(Rethrown(e)), 1, [])
  }

  function Retry<T>(fn: nat -> Outcome<T>, maxRetries: int): (run: RetryRun<T>)
    ensures IsRetryRun(fn, maxRetries, run)
  {
    RetryFrom(fn, maxRetries, 1)
  }

  /** The specification leaves no freedom: at most one run satisfies it. */
  lemma {:induction false} RetryRunUnique<T>(fn: nat -> Outcome<T>, maxRetries: int, r1: RetryRun<T>, r2: RetryRun<T>)
    requires IsRetryRun(fn, maxRetries, r1)
    requires IsRetryRun(fn, maxRetries, r2)
    ensures r1 == r2
  {
    if maxRetries >= 1 {
      if r1.calls < r2.calls {
        assert false;
      } else if r2.calls < r1.calls {
        assert false;
      }
    }
  }

  lemma {:induction false} ScheduleSnoc(from: nat, count: nat)
    ensures Schedule(from, count) + [BackoffDelay(from + count)] == Schedule(from, count + 1)
    decreases count
  {
    if count > 0 {
      ScheduleSnoc(from + 1, count - 1);
    }
  }

  /** `retryWithBackoff` as written: a loop over attempts 1 .. maxRetries. */
  method RetryWithBackoff<T>(fn: nat -> Outcome<T>, maxRetries: int) returns (run: RetryRun<T>)
    ensures IsRetryRun(fn, maxRetries, run)
    ensures run == Retry(fn, maxRetries)
  {
    var attempt: nat := 1;
    var delays: seq<nat> := [];
    while attempt <= maxRetries
      invariant 1 <= attempt
      invariant attempt <= maxRetries || attempt == 1
      invariant forall a :: 1 <= a < attempt ==> IsRateLimited(fn(a))
      invariant delays == Schedule(1, attempt - 1)
      decreases maxRetries - attempt
    {
      match fn(attempt)
      case Ok(v) =>
        run := RetryRun(Returned(v), attempt, delays);
        RetryRunUnique(fn, maxRetries, run, Retry(fn, maxRetries));
        return;
      case Err(e) =>
        if IsRateLimit(e) && attempt < maxRetries {
          ScheduleSnoc(1, attempt - 1);
          delays := delays + [BackoffDelay(attempt)];
          attempt := attempt + 1;
        } else {
          run := RetryRun(Threw(Rethrown(e)), attempt, delays);
          RetryRunUnique(fn, maxRetries, run, Retry(fn, maxRetries));
          return;
        }
    }
    run := RetryRun(Threw(MaxRetriesExceeded), 0, []);
    RetryRunUnique(fn, maxRetries, run, Retry(fn, maxRetries));
  }

  // ---------------------------------------------------------------------------
  // Consequences of the specification.

  /** Calls are bounded by `maxRetries`, and at most `maxRetries - 1` delays are slept. */
  lemma AttemptsBounded<T>(fn: nat -> Outcome<T>, maxRetries: int, run: RetryRun<T>)
    requires IsRetryRun(fn, maxRetries, run)
    ensures run.calls <= if maxRetries < 1 then 0 else maxRetries
    ensures |run.delays| <= if maxRetries < 1 then 0 else maxRetries - 1
    ensures run.calls >= 1 ==> |run.delays| == run.calls - 1
  {
  }

  /** The first call that succeeds ends the run: its value is returned and no
      further call is made. */
  lemma FirstSuccessReturned<T>(fn: nat -> Outcome<T>, maxRetries: int, k: nat, run: RetryRun<T>)
    requires IsRetryRun(fn, maxRetries, run)
    requires 1 <= k <= maxRetries
    requires fn(k).Ok?
    requires forall a :: 1 <= a < k ==> IsRateLimited(fn(a))
    ensures run == RetryRun(Returned(fn(k).value), k, Schedule(1, k - 1))
  {
    if run.calls < k {
      assert false;
    } else if run.calls > k {
      assert false;
    }
  }

  /** A failure that is not a rate limit is rethrown at once: no delay and
      no further call. */
  lemma NonRateLimitRethrownAtOnce<T>(fn: nat -> Outcome<T>, maxRetries: int, run: RetryRun<T>)
    requires IsRetryRun(fn, maxRetries, run)
    requires 1 <= maxRetries
    requires fn(1).Err? && !IsRateLimit(fn(1).error)
    ensures run == RetryRun(Threw(Rethrown(fn(1).error)), 1, [])
  {
    if run.calls > 1 {
      assert false;
    }
  }

  /** A rate limit on every attempt ends with the last attempt's rate-limit
      error rethrown unchanged, after `maxRetries` calls and `maxRetries - 1`
      delays. */
  lemma PersistentRateLimitRethrown<T>(fn: nat -> Outcome<T>, maxRetries: int, run: RetryRun<T>)
    requires IsRetryRun(fn, maxRetries, run)
    requires 1 <= maxRetries
    requires forall a :: 1 <= a <= maxRetries ==> IsRateLimited(fn(a))
    ensures run.calls == maxRetries
    ensures IsRateLimited(fn(maxRetries)) && run.result == Threw(Rethrown(fn(maxRetries).error))
    ensures IsRateLimit(run.result.thrown.error)
    ensures run.delays == Schedule(1, maxRetries - 1)
  {
    assert IsRateLimited(fn(run.calls));
  }

  /** The generic "Max retries exceeded" error is thrown exactly when
      `maxRetries < 1`, and then the unit of work is never called. */
  lemma MaxRetriesExceededOnlyWithoutAttempts<T>(fn: nat -> Outcome<T>, maxRetries: int, run: RetryRun<T>)
    requires IsRetryRun(fn, maxRetries, run)
    ensures run.result == Threw(MaxRetriesExceeded) <==> maxRetries < 1
    ensures maxRetries < 1 ==> run.calls == 0 && run.delays == []
  {
    if maxRetries >= 1 {
      var last := run.calls;
      match fn(last)
      case Ok(v) =>
      case Err(e) =>
    }
  }

  /** Example: `k` rate limits followed by a success, with `k < maxRetries`,
      return the success value after `k` delays. */
  lemma RateLimitedThenSuccess<T>(fn: nat -> Outcome<T>, maxRetries: int, k: nat, v: T)
    requires k < maxRetries
    requires forall a :: 1 <= a <= k ==> IsRateLimited(fn(a))
    requires fn(k + 1) == Ok(v)
    ensures Retry(fn, maxRetries) == RetryRun(Returned(v), k + 1, Schedule(1, k))
  {
    FirstSuccessReturned(fn, maxRetries, k + 1, Retry(fn, maxRetries));
  }

  // ---------------------------------------------------------------------------
  // The delay formula.

  lemma {:induction false} Pow2Monotone(m: nat, n: nat)
    requires m <= n
    ensures Pow2(m) <= Pow2(n)
    decreases n - m
  {
    if m < n {
      Pow2Monotone(m, n - 1);
    }
  }

  /** Delays never decrease with the attempt number and never exceed 30000 ms. */
  lemma BackoffMonotoneAndCapped(a: nat, b: nat)
    requires a <= b
    ensures BackoffDelay(a) <= BackoffDelay(b) <= MaxDelayMs
  {
    Pow2Monotone(a, b);
  }

  /** The delay after attempt 5 and every later one is the 30000 ms cap. */
  lemma {:induction false} BackoffCappedFromFive(a: nat)
    requires a >= 5
    ensures BackoffDelay(a) == MaxDelayMs
  {
    Pow2Monotone(5, a);
  }

  /** Every schedule is non-decreasing and bounded by the cap. */
  lemma {:induction false} ScheduleSortedAndCapped(from: nat, count: nat)
    ensures forall i, j :: 0 <= i <= j < count ==> Schedule(from, count)[i] <= Schedule(from, count)[j]
    ensures forall i :: 0 <= i < count ==> Schedule(from, count)[i] <= MaxDelayMs
  {
    forall i | 0 <= i < count
      ensures Schedule(from, count)[i] == BackoffDelay(from + i)
    {
      ScheduleAt(from, count, i);
    }
    forall i, j | 0 <= i <= j < count
      ensures Schedule(from, count)[i] <= Schedule(from, count)[j]
    {
      BackoffMonotoneAndCapped(from + i, from + j);
    }
    forall i | 0 <= i < count
      ensures Schedule(from, count)[i] <= MaxDelayMs
    {
      BackoffMonotoneAndCapped(from + i, from + i);
    }
  }

  /** The i-th delay of a schedule is the delay after attempt `from + i`. */
  lemma {:induction false} ScheduleAt(from: nat, count: nat, i: nat)
    requires i < count
    ensures Schedule(from, count)[i] == BackoffDelay(from + i)
    decreases count
  {
    if i > 0 {
      ScheduleAt(from + 1, count - 1, i - 1);
    }
  }

  /** Delays after attempts 1 through 6: 2000, 4000, 8000, 16000, then the cap. */
  lemma FirstDelays()
    ensures Schedule(1, 6) == [2000, 4000, 8000, 16000, 30000, 30000]
  {
  }
}
